=== FILE: README.md ===
# Decision logic of an EmulationStation front-end, modelled in Dafny

This project models four pieces of decision logic from an EmulationStation-style
game front-end. Each is written as immutable records and pure transition
functions, with proofs of the properties the code promises.

- **Background watchers** (`PadWatcher`, `UpdateWatcher`). The controller-battery
  watcher compares each freshly fetched pad list with the list it stored last. A
  charging pad's battery level counts as unknown (-1). The update watcher is
  one-shot: when the update probe succeeds, it keeps the update message (the lines
  joined by newlines) and switches itself off.
- **"Forget a Bluetooth device" screen** (`BluetoothForget`). It builds its menu
  from the paired-device strings. It also splits a device id into the MAC address
  to remove and the name to show. Both removal actions are refused while a removal
  is still in progress.
- **Input-device detection screen** (`DetectDevice`). Holding a button for 1000 ms
  picks that device for configuration. ESC or a hotkey cancels, following the
  source's operator precedence exactly. On the first run, when a configured device
  already exists, the first held button skips the screen.
- **Menu button** (`Button`). Covers focus changes, enabling, OK-button and
  mouse-click activation, the order in which the box style is chosen, and the help
  prompt.

Everything the source asks of the system is a parameter of the model:

- the fetched pad list;
- the update probe's result and its message lines;
- the paired-device list;
- the `updates.enabled` setting and UPGRADE scripting support;
- whether the configuration maps an input to OK or to the hotkey;
- whether the input configuration file exists, and how many devices are configured;
- whether the mouse is over the button.

Some helpers have bodies that are not part of this model, so they are also
parameters: attribute extraction from a `<device …>` string (`Extractor`) and
upper-casing (`upper`). The module `Options` holds the optional-value type the
others share.

The pad watcher counts a charging pad's battery level as -1 so that the level
moving while it charges is not reported as a change. The code applies this
normalisation only in part:

- on a length change it stores the raw list without normalising it;
- otherwise it normalises entries only up to the first mismatch, where its loop breaks.

The model follows the code (`PadWatcher.Check`). The consequence is listed under
Findings.

## Model

| member | source | states |
|---|---|---|
| `PadWatcher.Check` | es-app/src/NetworkThread.cpp:41-66 | A length change always reports a change and stores the fetched list as fetched. With equal lengths, a change is reported iff some index differs in one of the six fields once the fetched entry is normalised. Without a change, every stored entry is normalised. With a change, exactly the entries up to and including the first mismatch are normalised and the rest are stored raw. |
| `PadWatcher.CheckLoop` | es-app/src/NetworkThread.cpp:43-65 | The source's loop (flag, in-place normalisation, break on the first mismatch) returns the same verdict and the same stored list as the declarative description in `Check`. |
| `PadWatcher.DiffersIsInequality` | es-app/src/NetworkThread.cpp:56 | The six-field comparison is exactly inequality of the modelled pad record. The pad record's declaration is not part of this model, so the record is taken to hold exactly the six fields the comparison reads. |
| `PadWatcher.SnapshotFollowsFetch` | es-app/src/NetworkThread.cpp:47-64 | Whatever the verdict, the stored list has the fetched list's length, and each stored entry is either the fetched entry or its normalised form. |
| `PadWatcher.SecondCheckQuiet` | es-app/src/NetworkThread.cpp:47-65 | If no pad in a list is charging, polling that list twice in a row reports no change the second time, from any starting snapshot. |
| `PadWatcher.ChargingPadReportsTwice` | es-app/src/NetworkThread.cpp:47-64 | Starting from an empty snapshot, one charging pad polled twice reports a change both times. |
| `PadWatcher.CheckNormalised` | es-app/src/NetworkThread.cpp:41-66 | Corrected detector: it stores the whole fetched list normalised, reports any length change, and with equal lengths reports a change iff some normalised entry differs. |
| `PadWatcher.NormalisedSecondCheckQuiet` | es-app/src/NetworkThread.cpp:47-65 | With the corrected detector, polling the same list twice always reports no change the second time, including when pads are charging. |
| `PadWatcher.SameVerdict` | es-app/src/NetworkThread.cpp:47-61 | On every poll, the corrected detector and the source's detector give the same verdict: the correction changes only what is stored. |
| `UpdateWatcher.EnabledAfterCheck` | es-app/src/NetworkThread.cpp:68-95 | Under every configuration, a poll that finds no update leaves `enabled` as it was, and a poll that finds an update makes `enabled` false. |
| `UpdateWatcher.JoinLines` | es-app/src/NetworkThread.cpp:80-85 | Joining no lines gives "". Joining n ≥ 1 lines gives the total length of the lines plus n-1 separators, and the result starts with the first line. |
| `UpdateWatcher.JoinSnoc` | es-app/src/NetworkThread.cpp:81-85 | Appending a line to a non-empty list appends one separator and that line, so no separator is added after the last line. |
| `UpdateWatcher.JoinLoop` | es-app/src/NetworkThread.cpp:80-85 | The source's loop (a separator before every line except the first) builds exactly `JoinLines`. |
| `UpdateWatcher.SplitJoin` | es-app/src/NetworkThread.cpp:80-85 | Cutting the joined message at its newlines gives back the lines, when there is at least one line and no line contains a newline. |
| `UpdateWatcher.JoinSplit` | es-app/src/NetworkThread.cpp:80-85 | Any message, cut at its newlines and joined again, is the same message. |
| `UpdateWatcher.Check` | es-app/src/NetworkThread.cpp:73-96 | A poll reports a change iff the probe finds an update. It then keeps the joined message and clears the internal flag. The message is "" when there are no lines; when no line contains a newline, it reads back as the lines. When no update is found, the watcher is unchanged. |
| `UpdateWatcher.OneShot` | es-app/src/NetworkThread.cpp:68-90 | After a poll that finds an update, the watcher stays disabled under every configuration and after any further polls. |
| `UpdateWatcher.QuietRunUnchanged` | es-app/src/NetworkThread.cpp:92-95 | A run of polls that never finds an update leaves the flag and the last message unchanged. |
| `BluetoothForget.Entries` | es-app/src/guis/GuiBluetoothForget.cpp:44-60 | There is one entry per non-empty device string. No entry is the "no devices" notice. Every non-empty string's entry appears in the menu. |
| `BluetoothForget.Load` | es-app/src/guis/GuiBluetoothForget.cpp:34-69 | An empty list gives exactly the one non-actionable "NO BLUETOOTH DEVICES FOUND" entry and returns false. A non-empty list returns true, and its menu is exactly `Entries` of the list: one actionable entry per non-empty string, in input order. |
| `BluetoothForget.Open` | es-app/src/guis/GuiBluetoothForget.cpp:14-32 | The screen opens with no removal in progress and with the loaded menu. It has a "REMOVE ALL" button exactly when the paired list is non-empty. |
| `BluetoothForget.EntriesAppend` | es-app/src/guis/GuiBluetoothForget.cpp:44-60 | Entries keep the input order: the entries of a concatenated list are the first part's entries followed by the second part's. |
| `BluetoothForget.AllEmptyStillListed` | es-app/src/guis/GuiBluetoothForget.cpp:40-68 | A non-empty list of empty strings gives an empty menu, yet `load` still returns true. |
| `BluetoothForget.EntryShape` | es-app/src/guis/GuiBluetoothForget.cpp:49-59 | A `<device ` string becomes a described entry with the extracted id and name. Its icon is the extracted type when that is non-empty, and "unknown" otherwise, so it is never empty. Any other string is listed verbatim and asks to remove itself, with an empty name. |
| `BluetoothForget.SplitDeviceId` | es-app/src/guis/GuiBluetoothForget.cpp:124-132 | The MAC never contains a space. For an id with a space, MAC + " " + name rebuilds the id. For an id without a space, the MAC is the id and the name is the one given. |
| `BluetoothForget.OnRemoveDevice` | es-app/src/guis/GuiBluetoothForget.cpp:119-135 | Nothing is asked while a removal is in progress. Otherwise the address is the split MAC. The displayed name is the part of the id after its first space, or the given name when the id has no space. When that is empty, the MAC is shown instead. So the displayed name is empty only for the id " ", or for an empty id with an empty name. |
| `BluetoothForget.RemoveGuardsAgree` | es-app/src/guis/GuiBluetoothForget.cpp:95-122 | Forgetting all controllers starts exactly when removing any single device would ask for confirmation: both test the same in-progress flag. |
| `BluetoothForget.PlainEntryRemoval` | es-app/src/guis/GuiBluetoothForget.cpp:58-59 | Selecting a plain entry "<mac> <name>" (MAC without spaces, non-empty name) asks to remove exactly that MAC and shows exactly that name. |
| `DetectDevice.HandleInput` | es-core/src/guis/GuiDetectDevice.cpp:87-126 | Every input is consumed. Mouse input changes nothing. The only way the input closes the screen is by cancelling it. Inputs that are not buttons, keys or CEC buttons leave an open screen unchanged, and so does a release while nothing is held. |
| `DetectDevice.CancelCondition` | es-core/src/guis/GuiDetectDevice.cpp:91-107 | An input cancels iff it is not from the mouse and either (a) it is not the first run and it is an ESC key-down from the keyboard, or (b) it comes from a non-keyboard device and is mapped to the hotkey. |
| `DetectDevice.FirstRunCancelQuirk` | es-core/src/guis/GuiDetectDevice.cpp:55-107 | On the first run the message names ESC, and not the hotkey, as the way to cancel. Yet ESC does not cancel, while a hotkey pressed on a pad does. |
| `DetectDevice.FirstRunEscapeSkips` | es-core/src/guis/GuiDetectDevice.cpp:109-139 | On the first run with the configuration file present and a device configured, an ESC press on a new screen starts holding the keyboard's configuration, and the next update ends the screen through the done callback. |
| `DetectDevice.IntendedCancelMatchesMessage` | es-core/src/guis/GuiDetectDevice.cpp:55-107 | Corrected cancel test: it cancels exactly on the ways the message names, that is, ESC always and a pad's hotkey outside the first run. Outside the first run it agrees with the test as written. |
| `DetectDevice.PressStartsHold` | es-core/src/guis/GuiDetectDevice.cpp:109-116 | A non-cancelling press while nothing is held starts holding the pressing configuration, with hold time 1000. |
| `DetectDevice.WhileHolding` | es-core/src/guis/GuiDetectDevice.cpp:109-123 | While something is held: any press keeps the timer, a release from another configuration is ignored, and a release from the held configuration drops the hold. |
| `DetectDevice.Update` | es-core/src/guis/GuiDetectDevice.cpp:128-155 | The first-run flag and the done callback never change. With nothing held, an update changes nothing. With the first-run shortcut, a hold ends the screen through the done callback. Otherwise the time left drops by the delta, and configuration starts exactly when it reaches 0 or less. |
| `DetectDevice.HoldCompletes` | es-core/src/guis/GuiDetectDevice.cpp:142-152 | Outside the shortcut, configuration of the held device starts, across a run of updates, iff some prefix of the deltas adds up to the time left. Until then the screen stays open, and the time left has dropped by the sum of the deltas. |
| `DetectDevice.HeldForHoldTime` | es-core/src/guis/GuiDetectDevice.cpp:14-152 | On a screen just opened outside the first run (nothing held), a press that does not cancel starts a hold, and the pressing device is then picked iff the deltas since the press add up to 1000 or more. |
| `DetectDevice.FirstRunShortcut` | es-core/src/guis/GuiDetectDevice.cpp:133-139 | On the first run, when the configuration file exists and a device is configured, any hold ends the screen at the next update through the done callback, without counting down. |
| `Button.NewButton` | es-core/src/components/ButtonComponent.cpp:12-31 | A new button is unfocused, enabled, not pressed, with no colour shift, and its box already shows the look its state calls for. |
| `Button.DefaultButtonLooksDisabled` | es-core/src/components/ButtonComponent.h:13 | A button built with every default (no action) shows the disabled look even though it is enabled. |
| `Button.SetText` | es-core/src/components/ButtonComponent.cpp:71-83 | The text is upper-cased only when asked, and the help text is stored as given. Nothing else changes, including the look. |
| `Button.SetPressedFunc` | es-core/src/components/ButtonComponent.cpp:45-48 | Setting the action changes nothing else. In particular it does not re-derive the look. |
| `Button.ActionSetLaterKeepsDisabledLook` | es-core/src/components/ButtonComponent.cpp:45-48 | A button built without an action and given one afterwards still shows the disabled look, which its state no longer calls for. |
| `Button.SetEnabled` | es-core/src/components/ButtonComponent.cpp:105-109 | The flag is set, the look is re-derived, and nothing else changes. |
| `Button.SetColorShift` | es-core/src/components/ButtonComponent.h:32 | The colour is recorded, the shift flag is set, the look is re-derived, and nothing else changes. |
| `Button.RemoveColorShift` | es-core/src/components/ButtonComponent.h:33 | The shift flag is cleared, the look is re-derived, and nothing else changes. |
| `Button.StylePrecedence` | es-core/src/components/ButtonComponent.cpp:111-132 | The disabled look (built-in filled image, colour 0x770000FF) is chosen exactly when the button is disabled or has no action, whatever the shift and focus. Otherwise a colour shift gives the filled image in the shifted colour. Otherwise the image is the filled one exactly when focused. |
| `Button.ShiftThenRemoveRestoresLook` | es-core/src/components/ButtonComponent.h:32-33 | On an unshifted button, setting a colour shift and then removing it restores the look the button had before. |
| `Button.OnFocusGained` | es-core/src/components/ButtonComponent.cpp:85-94 | An already focused button does not change and says nothing. Otherwise the button becomes focused, re-derives its look and speaks its text. |
| `Button.OnFocusLost` | es-core/src/components/ButtonComponent.cpp:96-103 | An unfocused button does not change. Otherwise the button becomes unfocused and re-derives its look. |
| `Button.FocusIdempotent` | es-core/src/components/ButtonComponent.cpp:85-103 | Gaining or losing focus twice is the same as doing it once, and the second time says nothing. `hasFocus` reports the last change. Speech happens iff the button was not already focused. |
| `Button.OkPressLikeClick` | es-core/src/components/ButtonComponent.cpp:50-215 | An OK press is taken, and it runs the action exactly when a completed left click over the button would: when an action is set and the button is enabled. |
| `Button.HelpPrompts` | es-core/src/components/ButtonComponent.cpp:186-191 | There is exactly one OK prompt. Its caption is the help text, or the button text when the help text is empty, so it is empty only when both are. |
| `Button.HelpPromptAfterSetText` | es-core/src/components/ButtonComponent.cpp:71-191 | After `setText`, the single OK prompt shows the new help text, or the new text (upper-cased when asked) when the new help text is empty. |
| `Button.OnMouseClick` | es-core/src/components/ButtonComponent.cpp:198-224 | A mouse button other than 1 is not handled and changes nothing. A left press marks the button pressed, captures the mouse and fires nothing. The action runs only on a release that follows a press, over an enabled button with an action. Only the pressed flag ever changes. |
| `Button.ClickSemantics` | es-core/src/components/ButtonComponent.cpp:200-220 | A press and then a release fires iff the pointer is over the button at the release and the button is enabled with an action. The press captures the mouse. The button ends unpressed and the mouse is released. A release with no press before it is handled but changes and fires nothing. |

## Left out

- The watcher registry, its poll thread, and the cross-thread posting of work to
  the UI thread. This includes the dispatch of changes to the notification message
  and the battery-level update (NetworkThread.cpp:98-118), and the reset of the pad
  watcher on a joystick change. All of this is concurrency, and the registry's
  source is not part of this model.
- The pad watcher's constructor (`mEnabled` from PADSINFO scripting support, false
  on Windows), and its `enabled`, which is declared in a header that is not part of
  this model.
- The update watcher's initial flag value, which is set in a header that is not
  part of this model. `OneShot` does not depend on it.
- The system probes (`getPadsInfo`, `canUpdate`, `getPairedBluetoothDeviceList`,
  `forgetBluetoothControllers`, `removeBluetoothDevice`). Their results are
  parameters. The message lines a failing `canUpdate` may have filled in are not
  modelled, because the source ignores them.
- The bodies of `Utils::String::extractString` and `Utils::String::toUpper` are not
  part of this model. They are parameters, so no property of upper-casing itself is
  claimed.
- `Utils::HtmlColor::applyColorOpacity` and the theme colours. The theme's back
  colour with opacity is kept symbolic (`ThemeBack(focused)`).
- BluetoothForget: the confirmation box and the loading screen. The loading work
  function sets `mWaitingLoad` (GuiBluetoothForget.cpp:105, 144) and its completion
  clears it. After a single removal the completion reloads the menu; after REMOVE
  ALL it shows a message box and closes the screen (lines 114-115). The model keeps
  `waitingLoad` as state and returns what would be asked for.
- BluetoothForget: the `_()` translation of "NO BLUETOOTH DEVICES FOUND" and
  "REMOVE ALL" (lines 24, 41). The model keeps the untranslated texts, because
  the translation catalogue is not part of this model. Also left out: the
  BACK handling in `input`, the help prompts of the screen, and the menu's layout
  and position.
- DetectDevice: the held-device label, the colour fade computed in floating point
  (GuiDetectDevice.cpp:143-145), PowerSaver pause/resume, the title, the
  device count and the first message line. The second message line, the cancel
  hint (GuiDetectDevice.cpp:55-58), is modelled only as the set of ways to cancel
  it names (`AdvertisedCancel`), not as text. Closing the screen (`delete this`, pushing the configuration screen) is
  the outcome tag. Calls after closing are excluded by the `outcome == Open`
  precondition, because the object no longer exists then.
- DetectDevice.HandleInput: mapping an input to the hotkey (`isMappedTo`, also
  spelled "HotKeyEnable" in one build variant) is an input flag of the event.
- Button: rendering, sizing and padding, text-cache building, the
  render-non-focused-background flag, and opacity changes. Mouse-over tracking
  belongs to the generic component, so it is a parameter of `OnMouseClick`. The
  generic component's own input handling is represented only by `Delegated`.
- Button.NewButton: the shift colour is uninitialised in the source. The model
  starts it at 0, and no look reads it before a shift is set.
- The renderer backend, the game scraper screen, and the declaration-only headers
  (game options, save state, switch, platform) hold no logic modelled here.

## Findings

| source | as written | input that shows it | evidently intended | confidence | as-written member | corrected member |
|---|---|---|---|---|---|---|
| es-app/src/NetworkThread.cpp:47-64 | Normalisation of a charging pad's battery to -1 happens only in the equal-length branch, and only up to the first mismatch. A length change or an early mismatch therefore stores raw battery levels of charging pads. | From an empty snapshot, poll the one-pad list `[{battery 50, status "Charging"}]` twice. Both polls report a change, although the list did not change between them. | The stored snapshot is the fully normalised list, so the same list polled twice reports no change the second time. | medium; not executed | `PadWatcher.ChargingPadReportsTwice` (about `PadWatcher.Check`) | `PadWatcher.CheckNormalised`, with `PadWatcher.NormalisedSecondCheckQuiet` |
| es-core/src/guis/GuiDetectDevice.cpp:55-101 | The cancel test reads `!mFirstRun && (ESC) \|\| (hotkey)`, so the first-run guard binds to the ESC test only. On the first run ESC does not cancel (like any key, it starts a hold of the keyboard when nothing is held), while a pad's hotkey cancels. The message shown on the first run says "PRESS ESC TO CANCEL.". | First run with no configured device: press ESC on the keyboard; the screen stays open and starts holding the keyboard. Press a hotkey-mapped button on a pad; the screen closes. When a device is already configured, the ESC hold ends the screen at the next update through the first-run shortcut (`DetectDevice.FirstRunEscapeSkips`), so the message is in effect honoured then; the mismatch shows only when no device is configured. | Cancel on the ways the message names: ESC always, a pad's hotkey only outside the first run. | low (the intent is read from the message text); not executed | `DetectDevice.FirstRunCancelQuirk` (about `DetectDevice.HandleInput`) | `DetectDevice.IntendedCancel`, with `DetectDevice.IntendedCancelMatchesMessage` |

=== FILE: bluetooth_forget.dfy ===
/** The "forget a Bluetooth device" screen (es-app/src/guis/GuiBluetoothForget.cpp):
    building its menu from the paired-device list, and splitting a device id
    into the address to remove and the name to show. The paired-device list
    and the attribute extraction are parameters; the confirmation box, the
    loading screen and its completion are represented by what they are asked
    to do. */
module BluetoothForget {

  import opened Options

  /** What selecting an entry asks for: removal of `id`, shown as `name`. */
  datatype RemoveRequest = RemoveRequest(id: string, name: string)

  /** One line of the menu. */
  datatype MenuEntry =
    | Notice(text: string)
    | Described(name: string, description: string, icon: string, onSelect: RemoveRequest)
    | Plain(text: string, onSelect: RemoveRequest)

  /** What `load` leaves behind: the menu, and whether the paired list was non-empty. */
  datatype Loaded = Loaded(entries: seq<MenuEntry>, listed: bool)

  /** The screen's own state: whether a removal is in progress, and its menu. */
  datatype ForgetScreen = ForgetScreen(waitingLoad: bool, entries: seq<MenuEntry>, removeAllButton: bool)

  /** The address handed to the removal, and the name the confirmation shows. */
  datatype RemovalTarget = RemovalTarget(mac: string, displayName: string)

  /** A device id cut at its first space, before the display-name fallback. */
  datatype SplitId = SplitId(mac: string, deviceName: string)

  /** The substring of a text between a start marker and an end marker;
      its definition is not part of this model. */
  type Extractor = (string, string, string) -> string

  const NoDevicesText: string := "NO BLUETOOTH DEVICES FOUND"
  const DevicePrefix: string := "<device "
  const UnknownIcon: string := "unknown"

  predicate StartsWith(s: string, prefix: string)
  {
    |prefix| <= |s| && s[..|prefix|] == prefix
  }

  /** The menu entry for one non-empty paired-device string. */
  function EntryFor(ssid: string, extract: Extractor): MenuEntry
  {
    if StartsWith(ssid, DevicePrefix) then
      var id := extract(ssid, "id=\"", "\"");
      var name := extract(ssid, "name=\"", "\"");
      var kind := extract(ssid, "type=\"", "\"");
      Described(name, id, if kind == "" then UnknownIcon else kind, RemoveRequest(id, name))
    else
      Plain(ssid, RemoveRequest(ssid, ""))
  }

  /** The entries for the paired-device strings, empty strings skipped. */
  function Entries(ssids: seq<string>, extract: Extractor): (entries: seq<MenuEntry>)
    ensures |entries| == CountNonEmpty(ssids)
    ensures forall e :: e in entries ==> !e.Notice?
    ensures forall i :: 0 <= i < |ssids| && ssids[i] != "" ==> EntryFor(ssids[i], extract) in entries
  {
    if |ssids| == 0 then []
    else if ssids[0] == "" then Entries(ssids[1..], extract)
    else [EntryFor(ssids[0], extract)] + Entries(ssids[1..], extract)
  }

  function CountNonEmpty(ssids: seq<string>): nat
  {
    if |ssids| == 0 then 0
    else (if ssids[0] == "" then 0 else 1) + CountNonEmpty(ssids[1..])
  }

  /** Refilling the menu from the paired-device list. */
  function Load(ssids: seq<string>, extract: Extractor): (r: Loaded)
    ensures r.listed <==> |ssids| > 0
    ensures |ssids| == 0 ==> r.entries == [Notice(NoDevicesText)]
    ensures |ssids| > 0 ==> |r.entries| == CountNonEmpty(ssids)
    ensures |ssids| > 0 ==> forall e :: e in r.entries ==> !e.Notice?
    ensures |ssids| > 0 ==> r.entries == Entries(ssids, extract)
  {
    if |ssids| == 0 then Loaded([Notice(NoDevicesText)], false)
    else Loaded(Entries(ssids, extract), true)
  }

  /** The screen as it opens: the menu loaded, and a "REMOVE ALL" button
      exactly when the load reported devices. */
  function Open(ssids: seq<string>, extract: Extractor): (s: ForgetScreen)
    ensures !s.waitingLoad
    ensures s.removeAllButton <==> |ssids| > 0
    ensures s.entries == Load(ssids, extract).entries
  {
    var loaded := Load(ssids, extract);
    ForgetScreen(false, loaded.entries, loaded.listed)
  }

  /** The menu lists the paired devices in their order: entries for a list
      split in two are the entries of the first part followed by those of
      the second. */
  lemma {:induction false} EntriesAppend(a: seq<string>, b: seq<string>, extract: Extractor)
    ensures Entries(a + b, extract) == Entries(a, extract) + Entries(b, extract)
    decreases |a|
  {
    if |a| == 0 {
      assert a + b == b;
    } else {
      assert (a + b)[0] == a[0];
      assert (a + b)[1..] == a[1..] + b;
      EntriesAppend(a[1..], b, extract);
    }
  }

  /** A list holding only empty strings gives an empty menu, and yet `load`
      reports devices. */
  lemma {:induction false} AllEmptyStillListed(ssids: seq<string>, extract: Extractor)
    requires |ssids| > 0
    requires forall i :: 0 <= i < |ssids| ==> ssids[i] == ""
    ensures Load(ssids, extract).entries == []
    ensures Load(ssids, extract).listed
    decreases |ssids|
  {
    if |ssids| > 1 {
      AllEmptyStillListed(ssids[1..], extract);
    }
  }

  /** A `<device …>` string becomes a described entry carrying the extracted
      id and name, with the extracted type as icon or "unknown" when there is
      none; any other string is listed as it is and asks for its own removal
      with no name. */
  lemma EntryShape(ssid: string, extract: Extractor)
    requires ssid != ""
    ensures StartsWith(ssid, DevicePrefix) ==>
              var e := EntryFor(ssid, extract);
              && e.Described?
              && e.onSelect == RemoveRequest(extract(ssid, "id=\"", "\""), extract(ssid, "name=\"", "\""))
              && e.name == e.onSelect.name && e.description == e.onSelect.id
              && e.icon != ""
              && e.icon == (if extract(ssid, "type=\"", "\"") == "" then UnknownIcon
                            else extract(ssid, "type=\"", "\""))
    ensures !StartsWith(ssid, DevicePrefix) ==>
              EntryFor(ssid, extract) == Plain(ssid, RemoveRequest(ssid, ""))
  {
  }

  /** The index of the first space of `s`, or |s| when there is none. */
  function SpaceIndex(s: string): (k: nat)
    ensures k <= |s|
    ensures forall j :: 0 <= j < k ==> s[j] != ' '
    ensures k < |s| ==> s[k] == ' '
  {
    if |s| == 0 then 0
    else if s[0] == ' ' then 0
    else 1 + SpaceIndex(s[1..])
  }

  /** An id holding a space is an address followed by a name: the address
      is the part before the first space and the name the rest, overriding
      the name given. */
  function SplitDeviceId(id: string, name: string): (r: SplitId)
    ensures ' ' !in r.mac
    ensures ' ' in id ==> r.mac + " " + r.deviceName == id
    ensures ' ' !in id ==> r.mac == id && r.deviceName == name
  {
    var k := SpaceIndex(id);
    if k < |id| then
      assert id == id[..k] + " " + id[k + 1..];
      SplitId(id[..k], id[k + 1..])
    else
      SplitId(id, name)
  }

  /** Selecting a device asks for confirmation of its removal, unless a
      removal is already in progress. The name shown falls back to the
      address when there is none. */
  function OnRemoveDevice(s: ForgetScreen, id: string, name: string): (r: Option<RemovalTarget>)
    ensures r.None? <==> s.waitingLoad
    ensures r.Some? ==> r.value.mac == SplitDeviceId(id, name).mac
    ensures r.Some? ==> (r.value.displayName == "" <==> id == " " || (id == "" && name == ""))
    ensures r.Some? && SplitDeviceId(id, name).deviceName != "" ==>
              r.value.displayName == SplitDeviceId(id, name).deviceName
    ensures r.Some? && SplitDeviceId(id, name).deviceName == "" ==> r.value.displayName == r.value.mac
  {
    if s.waitingLoad then None
    else
      var split := SplitDeviceId(id, name);
      Some(RemovalTarget(split.mac, if split.deviceName == "" then split.mac else split.deviceName))
  }

  /** "REMOVE ALL" starts forgetting every controller, unless a removal is
      already in progress. */
  function OnRemoveAll(s: ForgetScreen): (started: bool)
    ensures started <==> !s.waitingLoad
  {
    !s.waitingLoad
  }

  /** Both removal actions test the same flag: forgetting all controllers
      starts exactly when removing any single device would ask for it. */
  lemma RemoveGuardsAgree(s: ForgetScreen, id: string, name: string)
    ensures OnRemoveAll(s) <==> OnRemoveDevice(s, id, name).Some?
  {
  }

  /** Selecting a plain entry of the form "<address> <name>" removes that
      address and shows that name. */
  lemma PlainEntryRemoval(s: ForgetScreen, mac: string, name: string, extract: Extractor)
    requires !s.waitingLoad
    requires ' ' !in mac && name != ""
    requires !StartsWith(mac + " " + name, DevicePrefix)
    ensures var e := EntryFor(mac + " " + name, extract);
            OnRemoveDevice(s, e.onSelect.id, e.onSelect.name) == Some(RemovalTarget(mac, name))
  {
    var id := mac + " " + name;
    var split := SplitDeviceId(id, "");
    assert id[|mac|] == ' ';
    assert ' ' in id;
    assert split.mac + " " + split.deviceName == id;
    SplitUnique(split.mac, split.deviceName, mac, name);
  }

  /** An address without spaces is determined by "<address> <rest>". */
  lemma SplitUnique(mac1: string, rest1: string, mac2: string, rest2: string)
    requires ' ' !in mac1 && ' ' !in mac2
    requires mac1 + " " + rest1 == mac2 + " " + rest2
    ensures mac1 == mac2 && rest1 == rest2
  {
    var s := mac1 + " " + rest1;
    SpaceIndexAfter(mac1, rest1);
    SpaceIndexAfter(mac2, rest2);
    assert mac1 == s[..|mac1|];
    assert rest1 == s[|mac1| + 1..];
  }

  lemma SpaceIndexAfter(head: string, tail: string)
    requires ' ' !in head
    ensures SpaceIndex(head + " " + tail) == |head|
  {
    var s := head + " " + tail;
    assert s[|head|] == ' ';
    assert forall j :: 0 <= j < |head| ==> s[j] == head[j];
  }
}

=== FILE: button.dfy ===
/** The menu button widget (es-core/src/components/ButtonComponent.cpp and
    ButtonComponent.h): focus, enabling, activation by the OK button or a
    mouse click, the choice of background look, and its help prompt. The
    button's action is represented by whether one is set; running it is an
    output flag. Colours that the theme and the opacity decide are kept
    symbolic. */
module Button {

  import opened Options

  type u32 = x: int | 0 <= x < 0x1_0000_0000

  /** The image of the button's background box. */
  datatype Image =
    | FilledBuiltin   // the built-in filled button image
    | ThemeFilled     // the theme's filled button image
    | ThemeNormal     // the theme's plain button image

  /** A background colour: a fixed RGBA value, or the theme's back colour
      for the focused or unfocused look with the opacity applied. */
  datatype BoxColor = Rgba(value: u32) | ThemeBack(focused: bool)

  datatype BoxStyle = BoxStyle(image: Image, center: BoxColor, edge: BoxColor)

  datatype Button = Button(
    text: string,
    helpText: string,
    hasAction: bool,
    focused: bool,
    enabled: bool,
    colorShift: bool,
    moddedColor: u32,
    mousePressed: bool,
    box: BoxStyle)

  datatype PromptButton = OkButton

  datatype HelpPrompt = HelpPrompt(button: PromptButton, caption: string)

  /** What an input did: taken by the button (running the action or not),
      or handed to the generic component handling. */
  datatype InputOutcome = Consumed(fired: bool) | Delegated

  /** What a mouse click asks of the window's mouse capture. */
  datatype CaptureChange = CaptureMouse | ReleaseMouse | NoCaptureChange

  datatype MouseResult = MouseResult(handled: bool, fired: bool, capture: CaptureChange, button: Button)

  datatype FocusResult = FocusResult(button: Button, spoken: Option<string>)

  /** The colour of a button that cannot be activated. */
  const DisabledColor: u32 := 0x770000FF

  /** The mouse button that clicks. */
  const LeftMouseButton: int := 1

  const DisabledStyle: BoxStyle := BoxStyle(FilledBuiltin, Rgba(DisabledColor), Rgba(DisabledColor))

  /** The look the button's state calls for. */
  function StyleFor(b: Button): BoxStyle
  {
    if !b.enabled || !b.hasAction then DisabledStyle
    else if b.colorShift then BoxStyle(ThemeFilled, Rgba(b.moddedColor), Rgba(b.moddedColor))
    else BoxStyle(if b.focused then ThemeFilled else ThemeNormal, ThemeBack(b.focused), ThemeBack(b.focused))
  }

  /** The box shows the look the state calls for. */
  predicate Consistent(b: Button)
  {
    b.box == StyleFor(b)
  }

  function Restyle(b: Button): Button
  {
    b.(box := StyleFor(b))
  }

  /** The text stored for a label: upper-cased when asked. */
  function Label(text: string, upperCase: bool, upper: string -> string): string
  {
    if upperCase then upper(text) else text
  }

  /** A new button: unfocused, enabled, not pressed, no colour shift, with
      its look derived. The colour-shift value is never read before a shift
      is set; it starts at 0 here. */
  function NewButton(text: string, helpText: string, hasAction: bool, upperCase: bool, upper: string -> string): (b: Button)
    ensures Consistent(b)
    ensures !b.focused && b.enabled && !b.mousePressed && !b.colorShift
    ensures b.text == Label(text, upperCase, upper) && b.helpText == helpText
    ensures b.hasAction == hasAction
  {
    Restyle(Button(Label(text, upperCase, upper), helpText, hasAction, false, true, false, 0, false, DisabledStyle))
  }

  /** A button built with every default: empty text and help text, no
      action, upper-casing on. Having no action, it shows the disabled look
      even though it is enabled. */
  lemma DefaultButtonLooksDisabled(upper: string -> string)
    requires upper("") == ""
    ensures var b := NewButton("", "", false, true, upper);
            b.enabled && b.box == DisabledStyle && b.text == "" && b.helpText == ""
  {
  }

  /** Changing the text keeps every other part of the state, the look included. */
  function SetText(b: Button, text: string, helpText: string, upperCase: bool, upper: string -> string): (r: Button)
    ensures r.text == Label(text, upperCase, upper) && r.helpText == helpText
    ensures r.(text := b.text, helpText := b.helpText) == b
    ensures Consistent(b) ==> Consistent(r)
  {
    b.(text := Label(text, upperCase, upper), helpText := helpText)
  }

  /** Setting the action does not re-derive the look. */
  function SetPressedFunc(b: Button, hasAction: bool): (r: Button)
    ensures r.hasAction == hasAction && r.box == b.box
    ensures r.(hasAction := b.hasAction) == b
  {
    b.(hasAction := hasAction)
  }

  /** A button built without an action and given one afterwards keeps the
      disabled look until something re-derives it. */
  lemma ActionSetLaterKeepsDisabledLook(upper: string -> string)
    ensures var b := SetPressedFunc(NewButton("OK", "", false, false, upper), true);
            b.hasAction && b.enabled && b.box == DisabledStyle && !Consistent(b)
  {
  }

  function SetEnabled(b: Button, enabled: bool): (r: Button)
    ensures r.enabled == enabled
    ensures Consistent(r)
    ensures r.(enabled := b.enabled, box := b.box) == b
  {
    Restyle(b.(enabled := enabled))
  }

  function SetColorShift(b: Button, color: u32): (r: Button)
    ensures r.colorShift && r.moddedColor == color
    ensures Consistent(r)
    ensures r.(colorShift := b.colorShift, moddedColor := b.moddedColor, box := b.box) == b
  {
    Restyle(b.(moddedColor := color, colorShift := true))
  }

  function RemoveColorShift(b: Button): (r: Button)
    ensures !r.colorShift
    ensures Consistent(r)
    ensures r.(colorShift := b.colorShift, box := b.box) == b
  {
    Restyle(b.(colorShift := false))
  }

  /** Which look wins: the disabled look whenever the button is disabled
      or has no action, whatever the shift and focus; otherwise the shifted
      colour on the filled image; otherwise the filled image exactly when
      focused, in the theme's focused or unfocused colour. */
  lemma StylePrecedence(b: Button)
    ensures !b.enabled || !b.hasAction ==> StyleFor(b) == DisabledStyle
    ensures b.enabled && b.hasAction && b.colorShift ==>
              StyleFor(b).image == ThemeFilled && StyleFor(b).center == StyleFor(b).edge == Rgba(b.moddedColor)
    ensures b.enabled && b.hasAction && !b.colorShift ==>
              && (StyleFor(b).image == ThemeFilled <==> b.focused)
              && StyleFor(b).center == StyleFor(b).edge == ThemeBack(b.focused)
    ensures StyleFor(b) == DisabledStyle <==> !b.enabled || !b.hasAction
  {
  }

  /** Removing a colour shift just set brings back the look the button had
      before it, when it had no shift then. */
  lemma ShiftThenRemoveRestoresLook(b: Button, color: u32)
    requires Consistent(b) && !b.colorShift
    ensures RemoveColorShift(SetColorShift(b, color)).box == b.box
  {
  }

  /** Gaining focus: nothing happens when already focused; otherwise the
      button becomes focused, re-derives its look and speaks its text. */
  function OnFocusGained(b: Button): (r: FocusResult)
    ensures r.button.focused
    ensures b.focused ==> r.button == b && r.spoken == None
    ensures !b.focused ==> r.spoken == Some(b.text) && r.button.(focused := false, box := b.box) == b
    ensures !b.focused ==> Consistent(r.button)
    ensures Consistent(b) ==> Consistent(r.button)
  {
    if b.focused then FocusResult(b, None)
    else FocusResult(Restyle(b.(focused := true)), Some(b.text))
  }

  /** Losing focus: nothing happens when not focused; otherwise the button
      becomes unfocused and re-derives its look. */
  function OnFocusLost(b: Button): (r: Button)
    ensures !r.focused
    ensures !b.focused ==> r == b
    ensures b.focused ==> r.(focused := true, box := b.box) == b && Consistent(r)
    ensures Consistent(b) ==> Consistent(r)
  {
    if !b.focused then b
    else Restyle(b.(focused := false))
  }

  function HasFocus(b: Button): bool
  {
    b.focused
  }

  /** Focus changes are idempotent, speech happens only on a real change to
      focused, and `hasFocus` reports the last change. */
  lemma FocusIdempotent(b: Button)
    ensures OnFocusGained(OnFocusGained(b).button) == FocusResult(OnFocusGained(b).button, None)
    ensures OnFocusLost(OnFocusLost(b)) == OnFocusLost(b)
    ensures HasFocus(OnFocusGained(b).button) && !HasFocus(OnFocusLost(b))
    ensures OnFocusGained(b).spoken.Some? <==> !HasFocus(b)
  {
  }

  /** An input event, given whether the configuration maps it to OK: an OK
      press is always taken and runs the action only when one is set and the
      button is enabled; anything else goes to the generic handling. */
  function HandleInput(b: Button, okMapped: bool, value: int): (r: InputOutcome)
    ensures r.Consumed? <==> okMapped && value != 0
    ensures r.Consumed? ==> (r.fired <==> b.hasAction && b.enabled)
  {
    if okMapped && value != 0 then Consumed(b.hasAction && b.enabled)
    else Delegated
  }

  /** An OK press is gated exactly like a completed left click over the
      button: both run the action only when one is set and the button is
      enabled. */
  lemma OkPressLikeClick(b: Button, value: int, overAtPress: bool)
    requires value != 0
    ensures HandleInput(b, true, value) ==
              Consumed(OnMouseClick(OnMouseClick(b, LeftMouseButton, true, overAtPress).button,
                                    LeftMouseButton, false, true).fired)
  {
  }

  /** The single help prompt: OK, labelled with the help text, or with the
      button text when there is no help text. */
  function HelpPrompts(b: Button): (prompts: seq<HelpPrompt>)
    ensures |prompts| == 1 && prompts[0].button == OkButton
    ensures b.helpText != "" ==> prompts[0].caption == b.helpText
    ensures b.helpText == "" ==> prompts[0].caption == b.text
    ensures prompts[0].caption == "" <==> b.helpText == "" && b.text == ""
  {
    [HelpPrompt(OkButton, if b.helpText == "" then b.text else b.helpText)]
  }

  /** After `setText`, the prompt shows the new help text, or the new
      (possibly upper-cased) text when the help text is empty. */
  lemma HelpPromptAfterSetText(b: Button, text: string, helpText: string, upperCase: bool, upper: string -> string)
    ensures HelpPrompts(SetText(b, text, helpText, upperCase, upper)) ==
              [HelpPrompt(OkButton, if helpText == "" then Label(text, upperCase, upper) else helpText)]
  {
  }

  /** A mouse click: the left button presses the button and captures the
      mouse; its release after a press clears the press, frees the mouse and
      runs the action when the pointer is over the button, an action is set
      and the button is enabled. Other mouse buttons are not handled. */
  function OnMouseClick(b: Button, mouseButton: int, pressed: bool, mouseOver: bool): (r: MouseResult)
    ensures r.handled <==> mouseButton == LeftMouseButton
    ensures !r.handled ==> r.button == b && !r.fired && r.capture == NoCaptureChange
    ensures mouseButton == LeftMouseButton && pressed ==> r.capture == CaptureMouse && r.button.mousePressed && !r.fired
    ensures r.fired ==> b.mousePressed && !pressed && mouseOver && b.hasAction && b.enabled
    ensures r.button.(mousePressed := b.mousePressed) == b
    ensures Consistent(b) ==> Consistent(r.button)
  {
    if mouseButton != LeftMouseButton then MouseResult(false, false, NoCaptureChange, b)
    else if pressed then MouseResult(true, false, CaptureMouse, b.(mousePressed := true))
    else if b.mousePressed then
      MouseResult(true, mouseOver && b.hasAction && b.enabled, ReleaseMouse, b.(mousePressed := false))
    else MouseResult(true, false, NoCaptureChange, b)
  }

  /** A left press followed by a left release is a click: it fires exactly
      when the pointer is over an enabled button with an action, and leaves
      the button unpressed. A release with no press before it changes
      nothing and fires nothing, yet is handled. */
  lemma ClickSemantics(b: Button, overAtPress: bool, overAtRelease: bool)
    ensures var down := OnMouseClick(b, LeftMouseButton, true, overAtPress);
            var up := OnMouseClick(down.button, LeftMouseButton, false, overAtRelease);
            && down.handled && !down.fired && down.button.mousePressed && down.capture == CaptureMouse
            && up.handled && !up.button.mousePressed && up.capture == ReleaseMouse
            && (up.fired <==> overAtRelease && b.hasAction && b.enabled)
            && up.button == b.(mousePressed := false)
    ensures !b.mousePressed ==>
              OnMouseClick(b, LeftMouseButton, false, overAtRelease) == MouseResult(true, false, NoCaptureChange, b)
  {
  }
}

=== FILE: detect_device.dfy ===
/** The input-device detection screen (es-core/src/guis/GuiDetectDevice.cpp):
    holding a button on a device for HoldTime milliseconds picks that device
    for configuration; ESC or a hotkey cancels. The screen is a state
    machine driven by `Input` and `Update`; closing it is an outcome tag. */
module DetectDevice {

  import opened Options

  /** How long, in milliseconds, a button must be held to pick its device. */
  const HoldTime: int := 1000

  /** The key code of the escape key. */
  const EscapeKey: int := 27

  /** An input configuration, that is, one device, by identity. */
  type ConfigId = int

  datatype DeviceKind = Mouse | Keyboard | OtherDevice(index: int)

  datatype InputType = Axis | Button | Hat | Key | CecButton

  datatype Input = Input(device: DeviceKind, kind: InputType, id: int, value: int)

  /** One input event: the configuration it came from, the input, and
      whether that configuration maps the input to the hotkey. */
  datatype Event = Event(config: ConfigId, input: Input, hotkeyMapped: bool)

  /** Whether the screen is still up, and if not, how it closed. */
  datatype Outcome =
    | Open
    | Cancelled
    | ConfigureStarted(config: ConfigId)
    | Skipped(callbackRun: bool)

  datatype Screen = Screen(firstRun: bool, hasDoneCallback: bool, holding: Option<ConfigId>, holdTime: int, outcome: Outcome)

  /** What `update` consults: whether the input configuration file exists
      and how many devices are configured. */
  datatype Env = Env(configFileExists: bool, configuredDevices: int)

  datatype InputResult = InputResult(consumed: bool, screen: Screen)

  function NewScreen(firstRun: bool, hasDoneCallback: bool): (s: Screen)
    ensures s.outcome == Open && s.holding == None
    ensures s.firstRun == firstRun
  {
    Screen(firstRun, hasDoneCallback, None, 0, Open)
  }

  predicate EscapeDown(i: Input)
  {
    i.device == Keyboard && i.kind == Key && i.value != 0 && i.id == EscapeKey
  }

  /** The cancel test exactly as parenthesised by the source: the first-run
      guard binds to the escape test only. */
  predicate CancelRequested(firstRun: bool, e: Event)
  {
    (!firstRun && EscapeDown(e.input)) || (e.input.device != Keyboard && e.hotkeyMapped)
  }

  predicate HoldsButton(i: Input)
  {
    i.kind == Button || i.kind == Key || i.kind == CecButton
  }

  /** One input event on the open screen. */
  function HandleInput(s: Screen, e: Event): (r: InputResult)
    requires s.outcome == Open
    ensures r.consumed
    ensures e.input.device == Mouse ==> r.screen == s
    ensures r.screen.outcome != Open ==> r.screen.outcome == Cancelled
    ensures r.screen.firstRun == s.firstRun && r.screen.hasDoneCallback == s.hasDoneCallback
    ensures !HoldsButton(e.input) && r.screen.outcome == Open ==> r.screen == s
    ensures e.input.value == 0 && s.holding == None && r.screen.outcome == Open ==> r.screen == s
  {
    if e.input.device == Mouse then InputResult(true, s)
    else if CancelRequested(s.firstRun, e) then InputResult(true, s.(outcome := Cancelled))
    else if HoldsButton(e.input) then
      if e.input.value != 0 && s.holding == None then
        InputResult(true, s.(holding := Some(e.config), holdTime := HoldTime))
      else if e.input.value == 0 && s.holding == Some(e.config) then
        InputResult(true, s.(holding := None))
      else InputResult(true, s)
    else InputResult(true, s)
  }

  /** The screen closes on an input exactly when it is not a mouse input and
      either it is an ESC key-down outside the first run, or it comes from a
      device other than the keyboard and is mapped to the hotkey, first run
      or not. */
  lemma CancelCondition(s: Screen, e: Event)
    requires s.outcome == Open
    ensures HandleInput(s, e).screen.outcome == Cancelled <==>
              && e.input.device != Mouse
              && ((!s.firstRun && e.input.device == Keyboard && e.input.kind == Key
                   && e.input.value != 0 && e.input.id == EscapeKey)
                  || (e.input.device != Keyboard && e.input.device != Mouse && e.hotkeyMapped))
  {
  }

  /** A way of cancelling that the screen's second message line names. */
  datatype CancelWay = EscapeWay | HotkeyWay

  /** The ways the message names: ESC alone on the first run, ESC or a
      hotkey otherwise. */
  function AdvertisedCancel(firstRun: bool): set<CancelWay>
  {
    if firstRun then {EscapeWay} else {EscapeWay, HotkeyWay}
  }

  /** On the first run the message names ESC and not the hotkey, yet ESC
      never cancels while a hotkey from a pad does. */
  lemma FirstRunCancelQuirk(s: Screen, config: ConfigId, pad: int, button: int)
    requires s.outcome == Open && s.firstRun
    ensures EscapeWay in AdvertisedCancel(s.firstRun) && HotkeyWay !in AdvertisedCancel(s.firstRun)
    ensures HandleInput(s, Event(config, Input(Keyboard, Key, EscapeKey, 1), false)).screen.outcome == Open
    ensures HandleInput(s, Event(config, Input(OtherDevice(pad), Button, button, 1), true)).screen.outcome == Cancelled
  {
  }

  /** On the first run with a configured device present, ESC still ends the
      screen: it starts a hold of the keyboard, and the next frame skips the
      screen through the done callback. */
  lemma FirstRunEscapeSkips(hasDoneCallback: bool, config: ConfigId, deltaTime: int, env: Env)
    requires env.configFileExists && env.configuredDevices > 0
    ensures var s := HandleInput(NewScreen(true, hasDoneCallback), Event(config, Input(Keyboard, Key, EscapeKey, 1), false)).screen;
            && s.outcome == Open && s.holding == Some(config)
            && Update(s, deltaTime, env).outcome == Skipped(hasDoneCallback)
  {
  }

  /** The cancel test the message describes: ESC at any time, and a hotkey
      from a device other than the keyboard outside the first run. */
  predicate IntendedCancel(firstRun: bool, e: Event)
  {
    EscapeDown(e.input) || (!firstRun && e.input.device != Keyboard && e.hotkeyMapped)
  }

  /** The intended test cancels exactly on the ways the message names, and
      agrees with the test as written whenever it is not the first run. */
  lemma IntendedCancelMatchesMessage(firstRun: bool, e: Event)
    ensures IntendedCancel(firstRun, e) <==>
              || (EscapeWay in AdvertisedCancel(firstRun) && EscapeDown(e.input))
              || (HotkeyWay in AdvertisedCancel(firstRun) && e.input.device != Keyboard && e.hotkeyMapped)
    ensures !firstRun ==> (IntendedCancel(firstRun, e) <==> CancelRequested(firstRun, e))
  {
  }

  /** A press while nothing is held starts holding the pressing device with
      the full hold time. */
  lemma PressStartsHold(s: Screen, e: Event)
    requires s.outcome == Open && s.holding == None
    requires e.input.device != Mouse && !CancelRequested(s.firstRun, e)
    requires HoldsButton(e.input) && e.input.value != 0
    ensures HandleInput(s, e).screen == s.(holding := Some(e.config), holdTime := HoldTime)
  {
  }

  /** While a device is held, presses from any device keep the timer, a
      release from another device is ignored, and a release from the held
      device drops the hold. */
  lemma WhileHolding(s: Screen, e: Event)
    requires s.outcome == Open && s.holding.Some?
    requires e.input.device != Mouse && !CancelRequested(s.firstRun, e)
    ensures e.input.value != 0 ==> HandleInput(s, e).screen == s
    ensures e.input.value == 0 && e.config != s.holding.value ==> HandleInput(s, e).screen == s
    ensures e.input.value == 0 && e.config == s.holding.value && HoldsButton(e.input) ==>
              HandleInput(s, e).screen == s.(holding := None)
  {
  }

  /** The first-run shortcut: a known device is already configured. */
  predicate Shortcut(s: Screen, env: Env)
  {
    s.firstRun && env.configFileExists && env.configuredDevices > 0
  }

  /** One frame of `deltaTime` milliseconds on the open screen. */
  function Update(s: Screen, deltaTime: int, env: Env): (r: Screen)
    requires s.outcome == Open
    ensures r.firstRun == s.firstRun && r.hasDoneCallback == s.hasDoneCallback
    ensures s.holding == None ==> r == s
    ensures s.holding.Some? && Shortcut(s, env) ==>
              r == s.(outcome := Skipped(s.hasDoneCallback))
    ensures s.holding.Some? && !Shortcut(s, env) ==>
              && r.holdTime == s.holdTime - deltaTime
              && r.holding == s.holding
              && (r.outcome == ConfigureStarted(s.holding.value) <==> r.holdTime <= 0)
              && (r.outcome == Open <==> r.holdTime > 0)
  {
    match s.holding
    case None => s
    case Some(config) =>
      if Shortcut(s, env) then
        s.(outcome := Skipped(s.hasDoneCallback))
      else
        var left := s.holdTime - deltaTime;
        if left <= 0 then s.(holdTime := left, outcome := ConfigureStarted(config))
        else s.(holdTime := left)
  }

  /** Frames one after the other, until the screen closes. */
  function RunUpdates(s: Screen, deltas: seq<int>, env: Env): Screen
    decreases |deltas|
  {
    if |deltas| == 0 || s.outcome != Open then s
    else RunUpdates(Update(s, deltas[0], env), deltas[1..], env)
  }

  function Sum(xs: seq<int>): int
  {
    if |xs| == 0 then 0 else xs[0] + Sum(xs[1..])
  }

  /** The first `k + 1` frames of `deltas` add up to `target` or more. */
  predicate ReachedBy(deltas: seq<int>, k: int, target: int)
  {
    0 <= k < |deltas| && Sum(deltas[..k + 1]) >= target
  }

  lemma PrefixSumStep(deltas: seq<int>, k: int)
    requires 0 <= k < |deltas|
    ensures Sum(deltas[..k + 1]) == deltas[0] + Sum(deltas[1..][..k])
  {
    assert deltas[..k + 1][1..] == deltas[1..][..k];
  }

  /** Outside the first-run shortcut, a hold picks its device exactly when
      the milliseconds counted since the hold began reach the time that was
      left; until then the screen stays open with the time left reduced by
      what was counted. */
  lemma {:induction false} HoldCompletes(s: Screen, deltas: seq<int>, env: Env)
    requires s.outcome == Open && s.holding.Some?
    requires !Shortcut(s, env)
    ensures var r := RunUpdates(s, deltas, env);
            && (r.outcome == ConfigureStarted(s.holding.value) <==>
                  exists k :: ReachedBy(deltas, k, s.holdTime))
            && (r.outcome == Open ==> r.holdTime == s.holdTime - Sum(deltas) && r.holding == s.holding)
            && (r.outcome == Open || r.outcome == ConfigureStarted(s.holding.value))
    decreases |deltas|
  {
    if |deltas| > 0 {
      var next := Update(s, deltas[0], env);
      var r := RunUpdates(s, deltas, env);
      PrefixSumStep(deltas, 0);
      if next.outcome == Open {
        var rest := deltas[1..];
        HoldCompletes(next, rest, env);
        if r.outcome == ConfigureStarted(s.holding.value) {
          var k :| ReachedBy(rest, k, next.holdTime);
          PrefixSumStep(deltas, k + 1);
          assert ReachedBy(deltas, k + 1, s.holdTime);
        }
        if exists k :: ReachedBy(deltas, k, s.holdTime) {
          var k :| ReachedBy(deltas, k, s.holdTime);
          PrefixSumStep(deltas, k);
          assert ReachedBy(rest, k - 1, next.holdTime);
        }
      } else {
        assert ReachedBy(deltas, 0, s.holdTime);
      }
    }
  }

  /** On a screen just opened outside the first run, a press picks the
      pressing device exactly when the frames since the press add up to
      HoldTime or more. */
  lemma HeldForHoldTime(hasDoneCallback: bool, e: Event, deltas: seq<int>, env: Env)
    requires e.input.device != Mouse && !CancelRequested(false, e)
    requires HoldsButton(e.input) && e.input.value != 0
    ensures var s := HandleInput(NewScreen(false, hasDoneCallback), e).screen;
            RunUpdates(s, deltas, env).outcome == ConfigureStarted(e.config) <==>
              exists k :: ReachedBy(deltas, k, HoldTime)
  {
    HoldCompletes(HandleInput(NewScreen(false, hasDoneCallback), e).screen, deltas, env);
  }

  /** On the first run with a configured device present, any hold ends the
      screen at the next frame through the done callback, without counting
      down. */
  lemma FirstRunShortcut(s: Screen, deltaTime: int, env: Env)
    requires s.outcome == Open && s.holding.Some? && s.firstRun
    requires env.configFileExists && env.configuredDevices > 0
    ensures Update(s, deltaTime, env).outcome == Skipped(s.hasDoneCallback)
    ensures Update(s, deltaTime, env).holdTime == s.holdTime
  {
  }
}

=== FILE: options.dfy ===
/** The optional value shared by the models: a pointer that may be null,
    a callback that may be unset, a request that may be ignored. */
module Options {

  datatype Option<+T> = None | Some(value: T)
}

=== FILE: pad_watcher.dfy ===
/** The controller-battery watcher: on every poll it fetches the list of
    pads and reports whether anything changed since the stored snapshot
    (CheckPadsBatteryLevelComponent::check in es-app/src/NetworkThread.cpp).
    The fetched list is a parameter: the system probe behind it is not part
    of this model. */
module PadWatcher {

  /** One pad record as returned by the system probe. */
  datatype PadInfo = PadInfo(id: int, name: string, device: string, path: string, battery: int, status: string)

  /** The watcher's own state: the pad list it saw last. */
  datatype PadsWatcher = PadsWatcher(snapshot: seq<PadInfo>)

  datatype CheckResult = CheckResult(changed: bool, watcher: PadsWatcher)

  const ChargingStatus: string := "Charging"

  /** The battery level reported for a pad whose level is unknown. */
  const UnknownBattery: int := -1

  /** A charging pad reports an unknown battery level. */
  function Normalise(p: PadInfo): PadInfo
  {
    if p.status == ChargingStatus then p.(battery := UnknownBattery) else p
  }

  predicate Charging(p: PadInfo)
  {
    p.status == ChargingStatus
  }

  /** The six-field comparison of the detector. */
  predicate Differs(a: PadInfo, b: PadInfo)
  {
    a.battery != b.battery || a.status != b.status || a.id != b.id
    || a.name != b.name || a.path != b.path || a.device != b.device
  }

  /** Index `i` of the latest list, once normalised, differs from the stored entry. */
  predicate Mismatch(stored: seq<PadInfo>, latest: seq<PadInfo>, i: int)
    requires |stored| == |latest|
    requires 0 <= i < |latest|
  {
    Differs(stored[i], Normalise(latest[i]))
  }

  /** `k` is where the comparison loop breaks: the first mismatching index. */
  ghost predicate FirstMismatch(stored: seq<PadInfo>, latest: seq<PadInfo>, k: int)
    requires |stored| == |latest|
  {
    && 0 <= k < |latest|
    && Mismatch(stored, latest, k)
    && forall j :: 0 <= j < k ==> !Mismatch(stored, latest, j)
  }

  /** The list `processed` is `latest` with exactly its first `n` entries normalised. */
  ghost predicate NormalisedBelow(latest: seq<PadInfo>, processed: seq<PadInfo>, n: int)
  {
    && |processed| == |latest|
    && 0 <= n <= |latest|
    && (forall i :: 0 <= i < n ==> processed[i] == Normalise(latest[i]))
    && (forall i :: n <= i < |latest| ==> processed[i] == latest[i])
  }

  /** The first index at or after `from` where the lists mismatch, or |latest|. */
  function MismatchFrom(stored: seq<PadInfo>, latest: seq<PadInfo>, from: nat): (k: nat)
    requires |stored| == |latest|
    requires from <= |latest|
    ensures from <= k <= |latest|
    ensures forall j :: from <= j < k ==> !Mismatch(stored, latest, j)
    ensures k < |latest| ==> Mismatch(stored, latest, k)
    decreases |latest| - from
  {
    if from == |latest| then from
    else if Mismatch(stored, latest, from) then from
    else MismatchFrom(stored, latest, from + 1)
  }

  /** The latest list with its first `n` entries normalised. */
  function NormalisePrefix(latest: seq<PadInfo>, n: nat): seq<PadInfo>
  {
    seq(|latest|, i requires 0 <= i < |latest| => if i < n then Normalise(latest[i]) else latest[i])
  }

  /** One poll of the detector, as the source does it: on a length change
      the raw list is stored; otherwise entries are normalised one by one
      up to and including the first mismatch, where the loop stops. */
  function Check(w: PadsWatcher, fetched: seq<PadInfo>): (r: CheckResult)
    ensures |w.snapshot| != |fetched| ==> r.changed && r.watcher.snapshot == fetched
    ensures |w.snapshot| == |fetched| ==>
              (r.changed <==> exists i :: 0 <= i < |fetched| && Mismatch(w.snapshot, fetched, i))
    ensures |w.snapshot| == |fetched| && !r.changed ==>
              NormalisedBelow(fetched, r.watcher.snapshot, |fetched|)
    ensures |w.snapshot| == |fetched| && r.changed ==>
              exists k :: FirstMismatch(w.snapshot, fetched, k)
                       && NormalisedBelow(fetched, r.watcher.snapshot, k + 1)
  {
    if |w.snapshot| != |fetched| then
      CheckResult(true, PadsWatcher(fetched))
    else
      var k := MismatchFrom(w.snapshot, fetched, 0);
      if k < |fetched| then
        assert FirstMismatch(w.snapshot, fetched, k);
        CheckResult(true, PadsWatcher(NormalisePrefix(fetched, k + 1)))
      else
        CheckResult(false, PadsWatcher(NormalisePrefix(fetched, |fetched|)))
  }

  /** The detector's loop written the way the source writes it: a flag, an
      in-place normalisation, and a break on the first mismatch. It computes
      the same verdict and snapshot as `Check`. */
  method CheckLoop(stored: seq<PadInfo>, fetched: seq<PadInfo>) returns (changed: bool, snapshot: seq<PadInfo>)
    ensures CheckResult(changed, PadsWatcher(snapshot)) == Check(PadsWatcher(stored), fetched)
  {
    changed := false;
    var pads := fetched;
    if |stored| != |fetched| {
      changed := true;
    } else {
      var i := 0;
      while i < |pads|
        invariant 0 <= i <= |pads|
        invariant !changed
        invariant pads == NormalisePrefix(fetched, i)
        invariant forall j :: 0 <= j < i ==> !Mismatch(stored, fetched, j)
      {
        if pads[i].status == ChargingStatus {
          pads := pads[i := pads[i].(battery := UnknownBattery)];
        }
        if Differs(stored[i], pads[i]) {
          changed := true;
          assert Mismatch(stored, fetched, i);
          MismatchFromFindsFirst(stored, fetched, i);
          break;
        }
        i := i + 1;
      }
      if !changed {
        MismatchFromFindsNone(stored, fetched);
      }
    }
    snapshot := pads;
  }

  lemma MismatchFromFindsFirst(stored: seq<PadInfo>, fetched: seq<PadInfo>, k: nat)
    requires |stored| == |fetched|
    requires k < |fetched|
    requires Mismatch(stored, fetched, k)
    requires forall j :: 0 <= j < k ==> !Mismatch(stored, fetched, j)
    ensures MismatchFrom(stored, fetched, 0) == k
  {
  }

  lemma MismatchFromFindsNone(stored: seq<PadInfo>, fetched: seq<PadInfo>)
    requires |stored| == |fetched|
    requires forall j :: 0 <= j < |fetched| ==> !Mismatch(stored, fetched, j)
    ensures MismatchFrom(stored, fetched, 0) == |fetched|
  {
  }

  /** Differing in one of the six compared fields is plain inequality of records. */
  lemma DiffersIsInequality(a: PadInfo, b: PadInfo)
    ensures Differs(a, b) <==> a != b
  {
  }

  /** Whatever the verdict, the stored snapshot is the fetched list, each
      entry either as fetched or normalised. */
  lemma SnapshotFollowsFetch(w: PadsWatcher, fetched: seq<PadInfo>)
    ensures |Check(w, fetched).watcher.snapshot| == |fetched|
    ensures forall i :: 0 <= i < |fetched| ==>
              Check(w, fetched).watcher.snapshot[i] in {fetched[i], Normalise(fetched[i])}
  {
  }

  /** With no charging pad in the list, polling the same list twice reports
      no change the second time. */
  lemma SecondCheckQuiet(w: PadsWatcher, fetched: seq<PadInfo>)
    requires forall i :: 0 <= i < |fetched| ==> !Charging(fetched[i])
    ensures !Check(Check(w, fetched).watcher, fetched).changed
  {
  }

  /** The same list polled twice can report two changes in a row when a pad
      is charging: a length change stores the raw battery level, and the
      next poll compares it with the normalised one. */
  lemma ChargingPadReportsTwice()
    ensures var pad := PadInfo(0, "Pad", "js0", "/dev/input/js0", 50, ChargingStatus);
            var first := Check(PadsWatcher([]), [pad]);
            && first.changed
            && Check(first.watcher, [pad]).changed
  {
  }

  /** The detector with the normalisation applied to the whole fetched list
      before comparing and storing. */
  function CheckNormalised(w: PadsWatcher, fetched: seq<PadInfo>): (r: CheckResult)
    ensures |r.watcher.snapshot| == |fetched|
    ensures forall i :: 0 <= i < |fetched| ==> r.watcher.snapshot[i] == Normalise(fetched[i])
    ensures |w.snapshot| != |fetched| ==> r.changed
    ensures |w.snapshot| == |fetched| ==>
              (r.changed <==> exists i :: 0 <= i < |fetched| && Mismatch(w.snapshot, fetched, i))
  {
    var processed := NormalisePrefix(fetched, |fetched|);
    var changed := |w.snapshot| != |fetched| || MismatchFrom(w.snapshot, fetched, 0) < |fetched|;
    CheckResult(changed, PadsWatcher(processed))
  }

  /** With the normalisation applied to the whole list, polling the same
      list twice always reports no change the second time, charging pads
      included. */
  lemma NormalisedSecondCheckQuiet(w: PadsWatcher, fetched: seq<PadInfo>)
    ensures !CheckNormalised(CheckNormalised(w, fetched).watcher, fetched).changed
  {
  }

  /** Both detectors give the same verdict on every poll: the correction
      changes only what is stored. */
  lemma SameVerdict(w: PadsWatcher, fetched: seq<PadInfo>)
    ensures CheckNormalised(w, fetched).changed == Check(w, fetched).changed
  {
  }
}

=== FILE: update_watcher.dfy ===
/** The update-availability watcher (CheckUpdatesComponent in
    es-app/src/NetworkThread.cpp): a one-shot detector that, once an update
    is found, keeps the update messages joined line by line and switches
    itself off. The update probe and the configuration it consults are
    parameters. */
module UpdateWatcher {

  /** The watcher's own state: its internal enabled flag and the message of
      the last update it found. */
  datatype UpdatesWatcher = UpdatesWatcher(armed: bool, lastMessage: string)

  /** What `enabled` consults besides the watcher: the "updates.enabled"
      setting and whether the system scripts support upgrading. */
  datatype Config = Config(updatesSetting: bool, upgradeSupported: bool)

  /** The outcome of the system's update probe: the message lines when an
      update can be installed. */
  datatype Probe = UpdateAvailable(lines: seq<string>) | NoUpdate

  datatype CheckResult = CheckResult(changed: bool, watcher: UpdatesWatcher)

  const Separator: char := '\n'

  /** Whether the poll loop should run this watcher. */
  predicate Enabled(w: UpdatesWatcher, c: Config)
  {
    w.armed && c.updatesSetting && c.upgradeSupported
  }

  /** A poll that finds nothing leaves `enabled` as it was under every
      configuration; a poll that finds an update disables the watcher under
      every configuration. */
  lemma EnabledAfterCheck(w: UpdatesWatcher, c: Config, lines: seq<string>)
    ensures Enabled(Check(w, NoUpdate).watcher, c) == Enabled(w, c)
    ensures !Enabled(Check(w, UpdateAvailable(lines)).watcher, c)
  {
  }

  /** Lines joined with a newline between consecutive lines. */
  function JoinLines(lines: seq<string>): (msg: string)
    ensures |lines| == 0 ==> msg == ""
    ensures |lines| > 0 ==> |msg| == TotalLength(lines) + |lines| - 1
    ensures |lines| > 0 ==> msg[..|lines[0]|] == lines[0]
  {
    if |lines| == 0 then ""
    else if |lines| == 1 then lines[0]
    else lines[0] + [Separator] + JoinLines(lines[1..])
  }

  function TotalLength(lines: seq<string>): nat
  {
    if |lines| == 0 then 0 else |lines[0]| + TotalLength(lines[1..])
  }

  /** Appending a line appends a separator and the line: no separator is
      added after the last line. */
  lemma {:induction false} JoinSnoc(lines: seq<string>, line: string)
    requires |lines| > 0
    ensures JoinLines(lines + [line]) == JoinLines(lines) + [Separator] + line
    decreases |lines|
  {
    if |lines| == 1 {
      assert lines + [line] == [lines[0], line];
      assert (lines + [line])[1..] == [line];
    } else {
      assert (lines + [line])[1..] == lines[1..] + [line];
      JoinSnoc(lines[1..], line);
    }
  }

  /** The message-building loop of the watcher, written the way the source
      writes it: a separator before every line but the first. */
  method JoinLoop(lines: seq<string>) returns (msg: string)
    ensures msg == JoinLines(lines)
  {
    msg := "";
    var i := 0;
    while i < |lines|
      invariant 0 <= i <= |lines|
      invariant msg == JoinLines(lines[..i])
    {
      if i != 0 {
        msg := msg + [Separator];
      }
      assert lines[..i + 1] == lines[..i] + [lines[i]];
      if i != 0 {
        JoinSnoc(lines[..i], lines[i]);
      }
      msg := msg + lines[i];
      i := i + 1;
    }
    assert lines[..i] == lines;
  }

  /** The index of the first separator in `s`, or |s| when there is none. */
  function SeparatorIndex(s: string): (k: nat)
    ensures k <= |s|
    ensures forall j :: 0 <= j < k ==> s[j] != Separator
    ensures k < |s| ==> s[k] == Separator
  {
    if |s| == 0 then 0
    else if s[0] == Separator then 0
    else 1 + SeparatorIndex(s[1..])
  }

  /** Cutting a message at its separators: the reading side of the join. */
  function SplitLines(s: string): (lines: seq<string>)
    ensures |lines| > 0
    ensures forall i :: 0 <= i < |lines| ==> Separator !in lines[i]
    decreases |s|
  {
    var k := SeparatorIndex(s);
    if k == |s| then [s]
    else [s[..k]] + SplitLines(s[k + 1..])
  }

  /** Joining then splitting gives the lines back, when there is at least
      one line and no line holds a separator of its own. */
  lemma {:induction false} SplitJoin(lines: seq<string>)
    requires |lines| > 0
    requires forall i :: 0 <= i < |lines| ==> Separator !in lines[i]
    ensures SplitLines(JoinLines(lines)) == lines
    decreases |lines|
  {
    var s := JoinLines(lines);
    if |lines| == 1 {
      NoSeparatorIndex(lines[0]);
    } else {
      var head := lines[0];
      assert s == head + [Separator] + JoinLines(lines[1..]);
      NoSeparatorIndex(head);
      SeparatorIndexAfter(head, JoinLines(lines[1..]));
      assert s[..|head|] == head;
      assert s[|head| + 1..] == JoinLines(lines[1..]);
      SplitJoin(lines[1..]);
      assert lines == [head] + lines[1..];
    }
  }

  /** Splitting then joining gives the message back, whatever it holds. */
  lemma {:induction false} JoinSplit(s: string)
    ensures JoinLines(SplitLines(s)) == s
    decreases |s|
  {
    var k := SeparatorIndex(s);
    if k < |s| {
      var rest := s[k + 1..];
      JoinSplit(rest);
      var tail := SplitLines(rest);
      assert SplitLines(s) == [s[..k]] + tail;
      assert JoinLines(SplitLines(s)) == s[..k] + [Separator] + JoinLines(tail);
      assert s == s[..k] + [Separator] + rest;
    }
  }

  lemma NoSeparatorIndex(s: string)
    requires Separator !in s
    ensures SeparatorIndex(s) == |s|
  {
  }

  lemma SeparatorIndexAfter(head: string, tail: string)
    requires Separator !in head
    ensures SeparatorIndex(head + [Separator] + tail) == |head|
  {
    var s := head + [Separator] + tail;
    assert s[|head|] == Separator;
    assert forall j :: 0 <= j < |head| ==> s[j] == head[j];
  }

  /** One poll: when an update is found the joined message is kept and the
      watcher switches itself off; otherwise nothing changes. */
  function Check(w: UpdatesWatcher, probe: Probe): (r: CheckResult)
    ensures r.changed <==> probe.UpdateAvailable?
    ensures probe.UpdateAvailable? ==> !r.watcher.armed
    ensures probe.UpdateAvailable? ==> r.watcher.lastMessage == JoinLines(probe.lines)
    ensures probe.UpdateAvailable? ==> SplitLinesBack(probe.lines, r.watcher.lastMessage)
    ensures probe.NoUpdate? ==> r.watcher == w
  {
    match probe
    case UpdateAvailable(lines) =>
      SplitLinesBackOfJoin(lines);
      CheckResult(true, UpdatesWatcher(false, JoinLines(lines)))
    case NoUpdate => CheckResult(false, w)
  }

  /** The message kept for `lines` reads back as those lines, or is empty
      when there were none. */
  ghost predicate SplitLinesBack(lines: seq<string>, msg: string)
  {
    if |lines| == 0 then msg == ""
    else (forall i :: 0 <= i < |lines| ==> Separator !in lines[i]) ==> SplitLines(msg) == lines
  }

  lemma SplitLinesBackOfJoin(lines: seq<string>)
    ensures SplitLinesBack(lines, JoinLines(lines))
  {
    if |lines| > 0 && forall i :: 0 <= i < |lines| ==> Separator !in lines[i] {
      SplitJoin(lines);
    }
  }

  /** Polls of the watcher one after the other, probe by probe. */
  function RunChecks(w: UpdatesWatcher, probes: seq<Probe>): UpdatesWatcher
    decreases |probes|
  {
    if |probes| == 0 then w else RunChecks(Check(w, probes[0]).watcher, probes[1..])
  }

  /** One-shot: once a poll has found an update, the watcher stays disabled
      whatever the configuration and whatever later probes report. */
  lemma {:induction false} OneShot(w: UpdatesWatcher, lines: seq<string>, later: seq<Probe>, c: Config)
    ensures !Enabled(RunChecks(Check(w, UpdateAvailable(lines)).watcher, later), c)
  {
    StaysDisarmed(Check(w, UpdateAvailable(lines)).watcher, later);
  }

  lemma {:induction false} StaysDisarmed(w: UpdatesWatcher, probes: seq<Probe>)
    requires !w.armed
    ensures !RunChecks(w, probes).armed
    decreases |probes|
  {
    if |probes| > 0 {
      StaysDisarmed(Check(w, probes[0]).watcher, probes[1..]);
    }
  }

  /** A run of polls that never finds an update leaves the watcher as it was. */
  lemma {:induction false} QuietRunUnchanged(w: UpdatesWatcher, probes: seq<Probe>)
    requires forall i :: 0 <= i < |probes| ==> probes[i].NoUpdate?
    ensures RunChecks(w, probes) == w
    decreases |probes|
  {
    if |probes| > 0 {
      QuietRunUnchanged(w, probes[1..]);
    }
  }
}
